=== FILE: README.md ===
# Stopwatch and countdown timer — a verified model

This project models the logic of a browser timer widget (`script.js`). The
widget has two modes. The **stopwatch** counts up and records laps. The
**countdown** runs down from an hours/minutes/seconds duration and alerts once
when it reaches zero. The widget is a state machine over a few module-level
variables: `mode`, `running`, `paused`, the refresh `interval`, `startTs`,
`accElapsed`, `lastTick`, `displayMs`, `lastLapTotal` and `targetMs`, plus
the three countdown input fields and the lap list. Its event handlers update
those variables step by step.

The model has five parts:

- `utils.dfy` (module `TimerUtils`) holds the pure helpers.
  - `clampInt` becomes `ClampInt`.
  - The countdown duration becomes `CountdownMs`. It models `getCountdownMs` and the two inline copies of the same computation in `start` and in the input `change` handler.
  - `formatTime` becomes `Decompose` (the floor-based split into hours, minutes, seconds and centiseconds) plus `FormatTime`, which renders each part as `String(n).padStart(2, '0')`.
- `timer_state.dfy` (module `TimerState`) holds the widget's state as a value. Each handler is a function from the state before to the state after (`StartStep`, `TickStep`, …). The button-enablement rules of `updateButtons` are predicates over that state. The module also defines the invariant `Inv`.
- `timer_props.dfy` (module `TimerProps`) proves what each handler does and that each one keeps `Inv`. It also proves the properties that span several handlers: a pause banks exactly the running interval, paused time never counts, and a countdown alerts exactly once. Lap arithmetic and the enablement rules are proved here too.
- `timer.dfy` (module `TimerWidget`) is the widget itself, a class `Timer`.
  - Its fields are the script's variables. The refresh interval becomes a boolean `ticking`. `beep` becomes a counter `alerts`. `render` records the last rendered duration in `rendered`.
  - Each handler is a method that updates the fields in the order the script does. Each event-handler method (`Start`, `PauseOrResume`, `Tick`, `Reset`, `SetMode`, `AddLap`, `ClearLaps`, `Preset5m`, `Edit`, `InputChanged`, `KeyDown`) is proved to take the object from state `s` to exactly `XStep(s, …)` and to keep `Valid()`. The helper methods they call (`BeginRun`, `CommitInputs`, `SetPhase`, `Finish`, `Render`, `Show`, `Beep`, `ClearElapsed`, `ClampField`) state only their own field updates. They neither require nor ensure `Valid()`: `Finish` on its own, for example, breaks the invariant for a countdown that still has time left.
  - Three ghost fields carry the proof bookkeeping: the latest clock reading, the running intervals banked since the last reset, and the number of countdowns started.
- `scenarios.dfy` (module `TimerScenarios`) drives the class through whole interactions with explicit clock readings and proves what the page ends up showing.

Time is integer milliseconds. The clock is the method parameter `now`. Every
handler that reads the clock requires `now` to be at least the latest reading
the timer has seen, so the clock is monotonic.

Three behaviours of the code are kept exactly as the code has them:

- `start` never zeroes `accElapsed`. Neither does `finish`, so a countdown that finished after a pause and is restarted without a reset still subtracts the time banked during the earlier run. `RestartAfterFinishKeepsBanked` and `RestartWithoutReset` state this.
- `addLap` uses the `displayMs` of the last tick, not a fresh clock reading.
- `reset` keeps the lap list and zeroes only `lastLapTotal`.

### Behaviour the code does not have

A timer like this one might be expected to behave in ways this code does
not. The model follows the code in each case:

- `start` does not set the banked time to 0.
- `reset` and a mode switch do not clear the laps (`ResetSpec`, `SetModeSpec`). An idle timer is therefore not always "banked time 0 and no laps". After a countdown finishes, an idle timer can also still hold banked time.
- Consecutive laps satisfy `total(i) - total(i-1) = split(i)`, with totals non-decreasing, only while no reset falls between the two laps. After a reset the next split is measured from 0. `AddLapSpec` states the code's rule, and `LapsAcrossReset` shows a lap list with totals 1000 then 300.
- Reset is not enabled merely because something has run. Every idle timer, in either mode, shows 0, so the button (script.js:102) is enabled exactly while the timer is running or paused (`ControlsFollowPhase`). That includes a countdown that has just finished while still holding banked time (`ResetDisabledAfterFinish`). Before the restart quirk above applies, only the `r` key or two mode switches clear that banked time.
- There is no separate "configure countdown" operation. The inputs are edited directly (`Edit`), clamped on `change` (`InputChanged`) and read by `start`.
- A comment in the script calls `accElapsed` "accumulated paused time". The code banks running time into it, and the model follows the code (`BankedIsSum`, `PauseOrResumeSpec`).

## Model

| member | source | states |
|---|---|---|
| TimerUtils.ClampInt | script.js:45 | The result lies in [min, max] when min ≤ max, equals v when v is already in range, and is the nearer bound otherwise. |
| TimerUtils.CountdownMs | script.js:46-51 | The clamped fields give a whole number of seconds in [0, 359999000] ms. The duration is positive exactly when some raw field is positive. The same computation appears inline at script.js:161-165 and 280-283. |
| TimerUtils.Decompose | script.js:53-60 | Minutes and seconds are below 60 and centiseconds below 100. Hours are unbounded. |
| TimerUtils.DecomposeExact | script.js:53-60 | For n = max(0, ms): h·3600000 + m·60000 + s·1000 + cs·10 + n mod 10 = n. |
| TimerUtils.DecomposeUnique | script.js:53-60 | Any in-range hours, minutes, seconds, centiseconds and unit digit that add up to n are exactly the ones the decomposition yields. |
| TimerUtils.CountdownDisplay | script.js:161-167 | A countdown target is displayed as exactly the clamped input fields, with 0 centiseconds. |
| TimerUtils.Decimal | script.js:62-65 | `String(n)` of a non-negative integer: non-empty, all digits, a leading 0 only for 0, one digit exactly below 10, at most two exactly below 100. |
| TimerUtils.DecimalValue | script.js:62-65 | The digits of `String(n)` read back as n. |
| TimerUtils.PadStart2 | script.js:62-65 | `padStart(2, '0')` gives length max(2, \|s\|), ends with s and is preceded only by '0'. |
| TimerUtils.PadKeepsValue | script.js:62-65 | Padding a digit string keeps it a digit string with the same value. |
| TimerUtils.FieldIsDecimal | script.js:62-65 | A padded field is at least two digits, exactly two below 100, and reads back as its value. |
| TimerUtils.FormatTime | script.js:53-67 | No contract of its own; see FormatTimeExact. |
| TimerUtils.FormatTimeExact | script.js:53-67 | Every formatted field is decimal and reads back as its part. Minutes, seconds and centiseconds are two digits, hours at least two. The four fields recover max(0, ms) up to its last digit. |
| TimerState.BankedAppend | script.js:182 | Banking one more running interval adds exactly its length to the banked total. |
| TimerState.SpanSplits | script.js:176-190 | For chronological intervals, banked time plus the gaps between intervals is the span from the first start to the last pause, and both parts are non-negative. |
| TimerProps.InitialSpec | script.js:289-295 | The loaded page is idle, in countdown mode, with no laps, satisfies the invariant, and shows the clamped input fields. |
| TimerProps.StartSpec | script.js:158-174 | Start is a no-op unless idle and never changes the banked time, displayMs, the laps or the alerts. A countdown writes back the clamped fields and sets a target that is a multiple of 1000 in [0, 359999000] and reads back as those fields. The countdown runs exactly when the target is positive and stays idle otherwise. A stopwatch always runs. Once running, startTs = now, the refresh is scheduled and the running time equals the banked time. A countdown start renders the target when it is positive and 0 otherwise, and counts one more countdown exactly when it runs. A stopwatch start changes only the phase, startTs and the clock reading. From idle, nothing changes beyond the phase, startTs, the clock reading, the inputs, targetMs, the rendered value and the countdown count. The invariant is kept. |
| TimerProps.PauseOrResumeSpec | script.js:176-190 | No-op from idle. A pause adds exactly now − startTs to accElapsed, records that interval and stops the refresh. A pause changes nothing else except the latest clock reading. A resume changes only the phase, startTs, the refresh and the latest clock reading. The running time at `now` is unchanged, and the invariant is kept. |
| TimerProps.PausedTimeNeverCounts | script.js:176-190 | Pausing at p and resuming at r removes exactly r − p from the running time. A stopwatch ticked afterwards shows only the two running stretches. |
| TimerProps.BankedExcludesGaps | script.js:176-190 | accElapsed equals the wall-clock span from the first banked start to the last pause, minus the time between consecutive banked intervals. That time is non-negative, so accElapsed never exceeds the span. |
| TimerProps.TickSpec | script.js:138-156 | Tick is a no-op unless running and never banks time. A stopwatch shows the running time, which never decreases. A countdown shows max(0, target − elapsed), keeps running exactly while that is positive, stops the refresh when it stops, and alerts exactly when it reaches 0. A tick while running changes nothing beyond the phase, the refresh, displayMs, the rendered value, lastTick, the clock reading and the alerts, so startTs and the inputs stay as they were. The invariant is kept. |
| TimerProps.CountdownNonIncreasing | script.js:138-156 | Between two ticks of a running countdown, the remaining time shown never goes up. It goes strictly down when the clock has moved. |
| TimerProps.ResetDisabledAfterFinish | script.js:102 | The tick that ends a countdown leaves Start enabled and Reset disabled, while accElapsed still holds the time banked by earlier pauses. |
| TimerProps.CountdownCompletesOnce | script.js:138-156 | The tick that finds nothing left leaves the countdown idle at 0 with exactly one more alert. Later ticks, pause/resume presses and laps change nothing, so the alert never repeats. |
| TimerProps.RestartAfterFinishKeepsBanked | script.js:158-174 | After a countdown finishes, start without a reset keeps accElapsed. The next tick shows the new target minus the old banked time minus the time since the restart. |
| TimerProps.ResetSpec | script.js:198-207 | From any phase: idle with the refresh stopped, and startTs, accElapsed, displayMs, targetMs, lastLapTotal and the display all 0. Laps, mode, inputs and alerts are unchanged. The result satisfies the invariant, and a second reset changes nothing. |
| TimerProps.SetModeSpec | script.js:77-96 | The current mode changes nothing. The other mode switches and resets, and a countdown then shows its configured duration. The switch changes nothing beyond the mode and the fields a reset writes, so the laps, the inputs and the alerts are kept. The invariant is kept, and switching to the same mode again changes nothing. |
| TimerProps.AddLapSpec | script.js:209-227 | No-op unless the stopwatch is running. Otherwise it appends lap number \|laps\|+1 with total = displayMs and a non-negative split, where previous lap mark + split = total. When the mark is non-zero the split is the difference from the previous lap's total. Only the list and the mark change, and the invariant is kept. |
| TimerProps.ClearLapsSpec | script.js:229-233 | Empties the list, zeroes the lap mark, changes nothing else and keeps the invariant. |
| TimerProps.PresetSpec | script.js:246-253 | No-op unless the countdown is idle. Otherwise the fields become 0 h 5 min 0 s, a 300000 ms duration that is rendered and decomposes into 0 h, 5 min, 0 s and 0 cs. Nothing else changes. |
| TimerProps.EditSpec | script.js:249 | Writing an input field's value changes that field only and keeps the invariant. |
| TimerProps.InputChangedSpec | script.js:270-287 | The changed field is clamped to its range: kept if in range, the nearer bound otherwise. An idle countdown then shows the fields' duration. Nothing else changes, and handling the same change twice equals handling it once. |
| TimerState.KeyCommand | script.js:257-266 | No contract of its own; it is the dispatch table that KeyStepSpec and Timer.KeyDown use. |
| TimerProps.KeyStepSpec | script.js:256-267 | The key handler keeps the invariant. A repeat event, and any key other than space, r/R and l/L, does nothing. |
| TimerProps.ControlsFollowPhase | script.js:99-111 | Under the invariant, Pause/Resume is enabled exactly while the refresh is scheduled or the timer is paused. Lap is enabled only while the refresh is scheduled, and never for a negative split. Reset is enabled exactly while running or paused, that is, exactly when Pause/Resume is, because every idle timer shows 0. A non-zero lap mark means Clear-laps is enabled. |
| TimerState.StartEnabled | script.js:100 | No contract of its own; see ControlsFollowPhase. |
| TimerState.PauseEnabled | script.js:101 | No contract of its own; see ControlsFollowPhase. |
| TimerState.ResetEnabled | script.js:102 | No contract of its own; see ControlsFollowPhase and ResetDisabledAfterFinish. |
| TimerState.LapEnabled | script.js:103 | No contract of its own; see ControlsFollowPhase and AddLapSpec. |
| TimerState.ClearLapsEnabled | script.js:104 | No contract of its own; see ControlsFollowPhase. |
| TimerState.InputsEnabled | script.js:108-109 | No contract of its own; see ControlsFollowPhase. |
| TimerState.PresetEnabled | script.js:110 | No contract of its own; see PresetSpec. |
| TimerWidget.Timer.constructor | script.js:28-42 | The object starts in the initial state and satisfies Valid(). |
| TimerWidget.Timer.Start | script.js:158-174 | The fields become StartStep of the old fields, and Valid() is kept. |
| TimerWidget.Timer.CommitInputs | script.js:160-165 | The three fields are replaced by their clamped values and the target is set from them. Nothing else changes. |
| TimerWidget.Timer.BeginRun | script.js:169-172 | Running, not paused, refresh scheduled, startTs and clock = now. Nothing else changes. |
| TimerWidget.Timer.SetPhase | script.js:193-194 | Sets running and paused, and schedules the refresh exactly when running. Nothing else changes. |
| TimerWidget.Timer.PauseOrResume | script.js:176-190 | The fields become PauseOrResumeStep of the old fields, and Valid() is kept. |
| TimerWidget.Timer.Finish | script.js:192-196 | Idle with the refresh stopped. Nothing else changes. |
| TimerWidget.Timer.Render | script.js:69-75 | Records the rendered duration. Nothing else changes. |
| TimerWidget.Timer.Show | script.js:144-145 | Sets displayMs and renders it. Nothing else changes. |
| TimerWidget.Timer.Beep | script.js:115-134 | Exactly one more alert. Nothing else changes. |
| TimerWidget.Timer.Tick | script.js:138-156 | The fields become TickStep of the old fields, and Valid() is kept. |
| TimerWidget.Timer.Reset | script.js:198-207 | The fields become ResetStep of the old fields, and Valid() holds after the call. It needs only well-formed laps and alerts ≤ countdowns, not the phase bookkeeping. |
| TimerWidget.Timer.ClearElapsed | script.js:201 | startTs and accElapsed are 0 and no banked interval remains. Nothing else changes. |
| TimerWidget.Timer.SetMode | script.js:77-96 | The fields become SetModeStep of the old fields, and Valid() is kept. |
| TimerWidget.Timer.AddLap | script.js:209-227 | The fields become AddLapStep of the old fields, and Valid() is kept. |
| TimerWidget.Timer.ClearLaps | script.js:229-233 | The fields become ClearLapsStep of the old fields, and Valid() is kept. |
| TimerWidget.Timer.Preset5m | script.js:246-253 | The fields become PresetStep of the old fields, and Valid() is kept. |
| TimerWidget.Timer.Edit | script.js:249 | The fields become EditStep of the old fields, and Valid() is kept. |
| TimerWidget.Timer.InputChanged | script.js:270-287 | The fields become InputChangedStep of the old fields, and Valid() is kept. |
| TimerWidget.Timer.ClampField | script.js:278 | The field is replaced by its clamped value. Nothing else changes. |
| TimerWidget.Timer.KeyDown | script.js:256-267 | The fields become KeyStep of the old fields, and Valid() is kept. |
| TimerScenarios.FiveSecondCountdown | script.js:138-174 | A 0:00:05 countdown started at 0 shows 1000 ms at 4000 ms, then 0. It ends idle after exactly one alert, even with a later tick. |
| TimerScenarios.LappedStopwatch | script.js:209-227 | A stopwatch started at 0 and lapped at 1000 ms is running with the single lap (1, 1000, 1000). |
| TimerScenarios.StopwatchLaps | script.js:209-227 | Laps at 1000 ms and 1500 ms are (1, 1000, 1000) and (2, 500, 1500). |
| TimerScenarios.LapsAcrossReset | script.js:198-207 | A lap at 1000 ms, a reset and a lap 300 ms into a new run give (1, 1000, 1000) and (2, 300, 300). |
| TimerScenarios.PauseResume | script.js:176-190 | Running 1000 ms, paused 4000 ms, then running 500 ms shows 1500 ms. |
| TimerScenarios.MinutesClamped | script.js:270-287 | 150 typed into the minutes field becomes 59, and the display shows 59 minutes. |
| TimerScenarios.RestartWithoutReset | script.js:158-174 | A 5 s countdown paused after 2 s, finished, then restarted without a reset shows 2000 ms one second after the restart, because the 2 s banked before the finish still count. |

## Left out

- Rendering to the DOM is left out: element lookup, text content, the lap list markup, classes, ARIA attributes, scrolling and the Pause/Resume button label. Only the last rendered duration (`rendered`) and the lap list as values are kept.
- Audio synthesis in `beep` is left out: the AudioContext, oscillators, gain ramps and the swallowed exceptions. `Beep` only counts the alert.
- `setInterval`/`clearInterval` and the 33 ms cadence are left out. The interval is the boolean `ticking`, and each tick is an explicit `Tick(now)` call.
- `performance.now()` returns floating-point milliseconds. The model uses integer milliseconds passed in as `now`, which is non-decreasing. The arithmetic inside `formatTime` is on integers. Sub-millisecond differences between clock readings, which the script subtracts before `formatTime` floors the result, are not modelled.
- String parsing in `clampInt` (`parseInt(v || 0, 10)`) is left out, including the NaN result for non-numeric text. Input fields are integers.
- Key events are modelled by their `key` string and `repeat` flag. `toLowerCase` is modelled only for the keys that matter (`R`, `L`). `preventDefault` and listener registration are left out.
- The unused `raf` variable and the `soft` flag of `reset` are left out; the flag changes nothing in the code.
- TimerProps.KeyStepSpec: states only the invariant and the ignored keys. What each recognised key does is the dispatch function `KeyCommand` plus the lemma of the handler it selects.

=== FILE: scenarios.dfy ===
/**
 * Whole interactions with the widget, driven through its handlers with
 * explicit clock readings (milliseconds). Each method's postcondition is
 * what the page shows or keeps at the end.
 */
module TimerScenarios {
  import opened TimerState
  import opened TimerWidget

  /**
   * A 5-second countdown started at 0: at 4000 ms one second is left; the
   * tick at 5000 ms shows zero, stops the timer and alerts; a later tick
   * changes nothing, so there is exactly one alert.
   */
  method FiveSecondCountdown() returns (leftAt4s: int, shownAt6s: int, alerts: nat, idle: bool)
    ensures leftAt4s == 1000 && shownAt6s == 0 && alerts == 1 && idle
  {
    var t := new Timer(0, 0, 5);
    t.Start(0);
    t.Tick(4000);
    leftAt4s := t.displayMs;
    t.Tick(5000);
    t.Tick(6000);
    shownAt6s, alerts, idle := t.displayMs, t.alerts, !t.running && !t.paused;
  }

  /** A stopwatch started at 0 and lapped at 1000 ms, still running. */
  method LappedStopwatch() returns (t: Timer)
    ensures fresh(t) && t.Valid() && t.mode == Stopwatch && t.running && t.clock == 1000
    ensures t.startTs == 0 && t.accElapsed == 0
    ensures t.laps == [Lap(1, 1000, 1000)] && t.lastLapTotal == 1000
  {
    t := new Timer(0, 0, 0);
    t.SetMode(Stopwatch);
    assert t.mode == Stopwatch && t.accElapsed == 0 && t.laps == [] && t.lastLapTotal == 0
      && t.displayMs == 0 && !t.running && !t.paused;
    t.Start(0);
    assert t.running && t.startTs == 0;
    t.Tick(1000);
    assert t.displayMs == 1000;
    t.AddLap();
  }

  /** Laps at 1000 ms and 1500 ms of a stopwatch: splits 1000 and 500, totals 1000 and 1500. */
  method StopwatchLaps() returns (laps: seq<Lap>)
    ensures laps == [Lap(1, 1000, 1000), Lap(2, 500, 1500)]
  {
    var t := LappedStopwatch();
    t.Tick(1500);
    assert t.displayMs == 1500 && t.running && t.mode == Stopwatch;
    t.AddLap();
    laps := t.laps;
  }

  /**
   * A lap, a reset and another lap: the reset keeps the first lap but zeroes
   * the lap mark, so the second lap's split is its whole total rather than
   * the difference from the first lap's total.
   */
  method LapsAcrossReset() returns (laps: seq<Lap>)
    ensures laps == [Lap(1, 1000, 1000), Lap(2, 300, 300)]
  {
    var t := LappedStopwatch();
    t.Reset();
    assert t.accElapsed == 0 && t.lastLapTotal == 0 && t.laps == [Lap(1, 1000, 1000)];
    t.Start(2000);
    assert t.running && t.startTs == 2000 && t.accElapsed == 0;
    t.Tick(2300);
    assert t.displayMs == 300 && t.running && t.mode == Stopwatch;
    t.AddLap();
    laps := t.laps;
  }

  /**
   * A stopwatch run for 1000 ms, paused for 4000 ms and resumed for 500 ms
   * shows 1500 ms: the paused time is not counted.
   */
  method PauseResume() returns (shown: int)
    ensures shown == 1500
  {
    var t := new Timer(0, 0, 0);
    t.SetMode(Stopwatch);
    t.Start(0);
    t.PauseOrResume(1000);
    t.PauseOrResume(5000);
    t.Tick(5500);
    shown := t.displayMs;
  }

  /** Typing 150 into the minutes field and leaving it stores 59. */
  method MinutesClamped() returns (mins: int, shown: int)
    ensures mins == 59 && shown == 59 * 60 * 1000
  {
    var t := new Timer(0, 0, 0);
    t.Edit(Minutes, 150);
    t.InputChanged(Minutes);
    mins, shown := t.cdMins, t.rendered;
  }

  /**
   * A 5-second countdown paused after 2 s, resumed and left to finish, then
   * started again without a reset: the banked 2 s still count, so one
   * second after the restart it shows 2 s instead of 4 s.
   */
  method RestartWithoutReset() returns (shown: int)
    ensures shown == 2000
  {
    var t := new Timer(0, 0, 5);
    t.Start(0);
    assert t.running && t.targetMs == 5000 && t.accElapsed == 0 && t.startTs == 0;
    t.PauseOrResume(2000);
    t.PauseOrResume(3000);
    assert t.running && t.accElapsed == 2000 && t.startTs == 3000;
    t.Tick(6000);
    assert !t.running && !t.paused && t.accElapsed == 2000;
    t.Start(7000);
    t.Tick(8000);
    shown := t.displayMs;
  }
}

=== FILE: timer.dfy ===
/**
 * The timer widget itself: one object whose fields are the page's state and
 * whose methods are its event handlers, updating the fields step by step.
 * Each method is specified by the matching step function of TimerState, and
 * keeps the invariant by the matching lemma of TimerProps.
 */
module TimerWidget {
  import opened TimerUtils
  import opened TimerState
  import opened TimerProps

  class Timer {
    var mode: Mode
    var running: bool
    var paused: bool
    /** Whether the periodic refresh is scheduled (`interval` is set). */
    var ticking: bool
    var startTs: int
    var accElapsed: int
    var lastTick: int
    var displayMs: int
    var lastLapTotal: int
    var targetMs: int
    var cdHours: int
    var cdMins: int
    var cdSecs: int
    var laps: seq<Lap>
    /** How many completion alerts have been requested. */
    var alerts: nat
    /** The last duration handed to the display. */
    var rendered: int

    /** The latest clock reading the timer has seen. */
    ghost var clock: int
    /** The running intervals banked by pauses since the last reset. */
    ghost var runs: seq<Interval>
    /** How many countdowns have been started. */
    ghost var countdowns: nat

    /** The object's fields as a state value. */
    ghost function Snap(): State
      reads this
    {
      State(mode, running, paused, ticking, startTs, accElapsed, lastTick, displayMs,
            lastLapTotal, targetMs, cdHours, cdMins, cdSecs, laps, alerts, rendered,
            clock, runs, countdowns)
    }

    ghost predicate Valid()
      reads this
    {
      Inv(Snap())
    }

    constructor (hours: int, mins: int, secs: int)
      ensures Valid() && Snap() == Initial(hours, mins, secs)
    {
      mode := Countdown;
      running, paused, ticking := false, false, false;
      startTs, accElapsed, lastTick, displayMs := 0, 0, 0, 0;
      lastLapTotal, targetMs := 0, 0;
      cdHours, cdMins, cdSecs := hours, mins, secs;
      laps := [];
      alerts := 0;
      rendered := CountdownMs(hours, mins, secs);
      clock, runs, countdowns := 0, [], 0;
      InitialSpec(hours, mins, secs);
    }

    method Start(now: int)
      requires Valid() && clock <= now
      modifies this
      ensures Valid() && Snap() == StartStep(old(Snap()), now)
    {
      StartSpec(Snap(), now);
      if running || paused {
        return;
      }
      if mode == Countdown {
        CommitInputs();
        if targetMs <= 0 {
          Render(0);
          return;
        }
        Render(targetMs);
        countdowns := countdowns + 1;
      }
      BeginRun(now);
    }

    /** The shared tail of `start` and of a resume. */
    method BeginRun(now: int)
      modifies this
      ensures Snap() == TimerState.BeginRun(old(Snap()), now)
    {
      SetPhase(true, false);
      startTs := now;
      clock := now;
    }

    /** The countdown part of `start`: write the clamped fields back and set the target from them. */
    method CommitInputs()
      modifies this
      ensures var h, m, sec := ClampInt(old(cdHours), 0, MaxHours), ClampInt(old(cdMins), 0, MaxMinutes),
                               ClampInt(old(cdSecs), 0, MaxSeconds);
        Snap() == old(Snap()).(cdHours := h, cdMins := m, cdSecs := sec, targetMs := CountdownMs(h, m, sec))
    {
      var h := ClampInt(cdHours, 0, MaxHours);
      var m := ClampInt(cdMins, 0, MaxMinutes);
      var s := ClampInt(cdSecs, 0, MaxSeconds);
      cdHours, cdMins, cdSecs := h, m, s;
      targetMs := CountdownMs(h, m, s);
    }

    /**
     * The phase flags as every handler writes them: `running` and `paused`,
     * then the refresh scheduled when running and cancelled otherwise.
     */
    method SetPhase(run: bool, pause: bool)
      modifies this
      ensures Snap() == old(Snap()).(running := run, paused := pause, ticking := run)
    {
      running, paused := run, pause;
      ticking := run;
    }

    method PauseOrResume(now: int)
      requires Valid() && clock <= now
      modifies this
      ensures Valid() && Snap() == PauseOrResumeStep(old(Snap()), now)
    {
      PauseOrResumeSpec(Snap(), now);
      if !running && !paused {
        return;
      }
      if running {
        SetPhase(false, true);
        runs := runs + [Interval(startTs, now)];
        accElapsed := accElapsed + (now - startTs);
        clock := now;
      } else {
        BeginRun(now);
      }
    }

    method Finish()
      modifies this
      ensures Snap() == FinishStep(old(Snap()))
    {
      SetPhase(false, false);
    }

    /** `render`: the duration handed to the display. */
    method Render(ms: int)
      modifies this
      ensures Snap() == old(Snap()).(rendered := ms)
    {
      rendered := ms;
    }

    /** `displayMs` set to `ms`, then rendered. */
    method Show(ms: int)
      modifies this
      ensures Snap() == old(Snap()).(displayMs := ms, rendered := ms)
    {
      displayMs := ms;
      Render(displayMs);
    }

    method Beep()
      modifies this
      ensures Snap() == BeepStep(old(Snap()))
    {
      alerts := alerts + 1;
    }

    method Tick(now: int)
      requires Valid() && clock <= now
      modifies this
      ensures Valid() && Snap() == TickStep(old(Snap()), now)
    {
      TickSpec(Snap(), now);
      if !running {
        return;
      }
      var elapsed := accElapsed + (now - startTs);
      lastTick := now;
      clock := now;
      if mode == Stopwatch {
        Show(elapsed);
      } else {
        var remain := NonNeg(targetMs - elapsed);
        Show(remain);
        if remain <= 0 {
          Finish();
          Beep();
          return;
        }
      }
    }

    /** Also the soft reset of a mode switch, which runs after the mode has changed. */
    method Reset()
      requires LapsWellFormed(Snap()) && alerts <= countdowns
      modifies this
      ensures Valid() && Snap() == ResetStep(old(Snap()))
    {
      ResetSpec(Snap());
      SetPhase(false, false);
      ClearElapsed();
      displayMs, targetMs, lastLapTotal := 0, 0, 0;
      Render(0);
    }

    /** Forgets the running time: no interval start, nothing banked. */
    method ClearElapsed()
      modifies this
      ensures Snap() == old(Snap()).(startTs := 0, accElapsed := 0, runs := [])
    {
      startTs, accElapsed := 0, 0;
      runs := [];
    }

    method SetMode(next: Mode)
      requires Valid()
      modifies this
      ensures Valid() && Snap() == SetModeStep(old(Snap()), next)
    {
      SetModeSpec(Snap(), next);
      if mode == next {
        return;
      }
      mode := next;
      Reset();
      if mode == Countdown {
        Render(CountdownMs(cdHours, cdMins, cdSecs));
      }
    }

    method AddLap()
      requires Valid()
      modifies this
      ensures Valid() && Snap() == AddLapStep(old(Snap()))
    {
      AddLapSpec(Snap());
      if mode != Stopwatch || !running {
        return;
      }
      var total := displayMs;
      var split := total - lastLapTotal;
      lastLapTotal := total;
      var idx := |laps| + 1;
      laps := laps + [Lap(idx, split, total)];
    }

    method ClearLaps()
      requires Valid()
      modifies this
      ensures Valid() && Snap() == ClearLapsStep(old(Snap()))
    {
      ClearLapsSpec(Snap());
      laps := [];
      lastLapTotal := 0;
    }

    method Preset5m()
      requires Valid()
      modifies this
      ensures Valid() && Snap() == PresetStep(old(Snap()))
    {
      PresetSpec(Snap());
      if mode != Countdown || running || paused {
        return;
      }
      Edit(Hours, 0);
      Edit(Minutes, 5);
      Edit(Seconds, 0);
      Render(CountdownMs(cdHours, cdMins, cdSecs));
    }

    method Edit(field: Field, value: int)
      requires Valid()
      modifies this
      ensures Valid() && Snap() == EditStep(old(Snap()), field, value)
    {
      EditSpec(Snap(), field, value);
      match field {
        case Hours => cdHours := value;
        case Minutes => cdMins := value;
        case Seconds => cdSecs := value;
      }
    }

    method InputChanged(field: Field)
      requires Valid()
      modifies this
      ensures Valid() && Snap() == InputChangedStep(old(Snap()), field)
    {
      InputChangedSpec(Snap(), field);
      ClampField(field);
      if mode == Countdown && !running && !paused {
        Render(CountdownMs(cdHours, cdMins, cdSecs));
      }
    }

    /** The first line of the `change` handler: the field's value clamped to its range. */
    method ClampField(field: Field)
      modifies this
      ensures Snap() == ClampFieldStep(old(Snap()), field)
    {
      match field {
        case Hours => cdHours := ClampInt(cdHours, 0, MaxHours);
        case Minutes => cdMins := ClampInt(cdMins, 0, MaxMinutes);
        case Seconds => cdSecs := ClampInt(cdSecs, 0, MaxSeconds);
      }
    }

    method KeyDown(key: string, repeat: bool, now: int)
      requires Valid() && clock <= now
      modifies this
      ensures Valid() && Snap() == KeyStep(old(Snap()), key, repeat, now)
    {
      KeyStepSpec(Snap(), key, repeat, now);
      if repeat {
        return;
      }
      if key == " " {
        if !running && !paused {
          Start(now);
        } else {
          PauseOrResume(now);
        }
      } else if key == "r" || key == "R" {
        Reset();
      } else if key == "l" || key == "L" {
        AddLap();
      }
    }
  }
}

=== FILE: timer_props.dfy ===
/**
 * What each handler of the timer widget guarantees: every handler keeps the
 * invariant, and the facts the widget relies on (banked time, one alert per
 * countdown, lap arithmetic, control enablement) follow from the handlers.
 */
module TimerProps {
  import opened TimerUtils
  import opened TimerState

  /** The page starts idle in countdown mode, showing the configured duration. */
  lemma InitialSpec(hours: int, mins: int, secs: int)
    ensures var t := Initial(hours, mins, secs);
      && Inv(t) && PhaseOf(t) == Idle && t.mode == Countdown && t.laps == []
      && Decompose(t.rendered)
         == Parts(ClampInt(hours, 0, MaxHours), ClampInt(mins, 0, MaxMinutes), ClampInt(secs, 0, MaxSeconds), 0)
  {
    CountdownDisplay(hours, mins, secs);
  }

  /**
   * `start` acts only from idle and never touches the banked time, the
   * display or the laps. A countdown first commits the clamped fields (the
   * target is then a whole number of seconds, at most 99:59:59, and reads
   * back as those fields) and runs exactly when that target is positive.
   */
  lemma StartSpec(s: State, now: int)
    requires Inv(s) && s.clock <= now
    ensures var t := StartStep(s, now);
      && Inv(t)
      && (PhaseOf(s) != Idle ==> t == s)
      && t.mode == s.mode && t.accElapsed == s.accElapsed && t.runs == s.runs
      && t.displayMs == s.displayMs && t.laps == s.laps && t.alerts == s.alerts
      && (PhaseOf(s) == Idle && s.mode == Countdown ==>
            && t.cdHours == ClampInt(s.cdHours, 0, MaxHours)
            && t.cdMins == ClampInt(s.cdMins, 0, MaxMinutes)
            && t.cdSecs == ClampInt(s.cdSecs, 0, MaxSeconds)
            && t.targetMs == CountdownMs(s.cdHours, s.cdMins, s.cdSecs)
            && t.targetMs % 1000 == 0 && 0 <= t.targetMs <= 359999000
            && Decompose(t.targetMs) == Parts(t.cdHours, t.cdMins, t.cdSecs, 0)
            && (PhaseOf(t) == Running <==> t.targetMs > 0)
            && (PhaseOf(t) == Idle <==> t.targetMs <= 0)
            && t.rendered == (if t.targetMs > 0 then t.targetMs else 0)
            && t.countdowns == s.countdowns + (if t.targetMs > 0 then 1 else 0))
      && (PhaseOf(s) == Idle && PhaseOf(t) == Idle ==> t.startTs == s.startTs && t.clock == s.clock)
      && (PhaseOf(s) == Idle && PhaseOf(t) == Running ==>
            && t.startTs == now && t.clock == now && t.ticking && ElapsedAt(t, now) == s.accElapsed)
      && (PhaseOf(s) == Idle && s.mode == Stopwatch ==>
            && PhaseOf(t) == Running
            && t.(running := s.running, paused := s.paused, ticking := s.ticking,
                  startTs := s.startTs, clock := s.clock) == s)
      && (PhaseOf(s) == Idle ==>
            t.(running := s.running, paused := s.paused, ticking := s.ticking,
               startTs := s.startTs, clock := s.clock, cdHours := s.cdHours, cdMins := s.cdMins,
               cdSecs := s.cdSecs, targetMs := s.targetMs, rendered := s.rendered,
               countdowns := s.countdowns) == s)
  {
    CountdownDisplay(s.cdHours, s.cdMins, s.cdSecs);
  }

  /**
   * `pauseOrResume` does nothing from idle. A pause banks exactly the
   * interval since the last start or resume; a resume changes only the
   * phase and the interval start. Either way the running time at `now` is
   * the same before and after.
   */
  lemma PauseOrResumeSpec(s: State, now: int)
    requires Inv(s) && s.clock <= now
    ensures var t := PauseOrResumeStep(s, now);
      && Inv(t)
      && (PhaseOf(s) == Idle ==> t == s)
      && (PhaseOf(s) == Running ==>
            && PhaseOf(t) == Paused && !t.ticking
            && t.accElapsed == s.accElapsed + (now - s.startTs)
            && t.runs == s.runs + [Interval(s.startTs, now)]
            && t.(running := s.running, paused := s.paused, ticking := s.ticking,
                  accElapsed := s.accElapsed, runs := s.runs, clock := s.clock) == s)
      && (PhaseOf(s) == Paused ==>
            && PhaseOf(t) == Running && t.ticking
            && t.startTs == now && t.accElapsed == s.accElapsed && t.runs == s.runs
            && t.(running := s.running, paused := s.paused, ticking := s.ticking,
                  startTs := s.startTs, clock := s.clock) == s)
      && ElapsedAt(t, now) == ElapsedAt(s, now)
      && t.mode == s.mode && t.displayMs == s.displayMs && t.targetMs == s.targetMs
      && t.laps == s.laps && t.lastLapTotal == s.lastLapTotal && t.alerts == s.alerts
  {
    if s.running {
      BankedAppend(s.runs, Interval(s.startTs, now));
    }
  }

  /**
   * Pausing at `p` and resuming at `r` takes exactly the paused stretch
   * `r - p` out of the running time, however long it lasts: a stopwatch
   * ticked at `q` afterwards shows the two running stretches only.
   */
  lemma PausedTimeNeverCounts(s: State, p: int, r: int, q: int)
    requires Inv(s) && s.running && s.clock <= p <= r <= q
    ensures var t := PauseOrResumeStep(PauseOrResumeStep(s, p), r);
      && PhaseOf(t) == Running
      && t.accElapsed == s.accElapsed + (p - s.startTs)
      && ElapsedAt(t, q) == ElapsedAt(s, q) - (r - p)
      && (s.mode == Stopwatch ==>
            TickStep(t, q).displayMs == s.accElapsed + (p - s.startTs) + (q - r))
  {
    PauseOrResumeSpec(s, p);
    PauseOrResumeSpec(PauseOrResumeStep(s, p), r);
  }

  /**
   * The banked time is the wall-clock span from the first banked start to
   * the last pause, less the time between the banked intervals.
   */
  lemma BankedExcludesGaps(s: State)
    requires Inv(s) && |s.runs| > 0
    ensures s.accElapsed == (s.runs[|s.runs| - 1].to - s.runs[0].from) - Gaps(s.runs)
    ensures 0 <= Gaps(s.runs) && s.accElapsed <= s.runs[|s.runs| - 1].to - s.runs[0].from
  {
    SpanSplits(s.runs);
  }

  /**
   * `tick` does nothing unless running and never banks time. A stopwatch
   * shows the running time, which never goes down; a countdown shows what
   * remains, never below zero, keeps running exactly while something
   * remains, and alerts exactly when it stops.
   */
  lemma TickSpec(s: State, now: int)
    requires Inv(s) && s.clock <= now
    ensures var t := TickStep(s, now);
      && Inv(t)
      && (!s.running ==> t == s)
      && t.mode == s.mode && t.accElapsed == s.accElapsed && t.runs == s.runs
      && t.targetMs == s.targetMs && t.laps == s.laps && t.lastLapTotal == s.lastLapTotal
      && (s.running ==>
            && t.rendered == t.displayMs && t.lastTick == now && t.clock == now && !t.paused
            && t.(running := s.running, paused := s.paused, ticking := s.ticking,
                  displayMs := s.displayMs, rendered := s.rendered, lastTick := s.lastTick,
                  clock := s.clock, alerts := s.alerts) == s)
      && (s.running && s.mode == Stopwatch ==>
            && t.running && t.displayMs == ElapsedAt(s, now)
            && s.displayMs <= t.displayMs && t.alerts == s.alerts)
      && (s.running && s.mode == Countdown ==>
            && t.displayMs == NonNeg(s.targetMs - ElapsedAt(s, now))
            && (t.running <==> t.displayMs > 0)
            && t.ticking == t.running
            && t.alerts == s.alerts + (if t.displayMs == 0 then 1 else 0))
  {
  }

  /**
   * A countdown completes exactly once: the tick that finds nothing left
   * leaves it idle at zero with one more alert, and from then on ticks,
   * pauses and laps change nothing, so the alert is never repeated.
   */
  lemma CountdownCompletesOnce(s: State, now: int, later: int)
    requires Inv(s) && s.clock <= now && s.running && s.mode == Countdown
    requires ElapsedAt(s, now) >= s.targetMs
    ensures var t := TickStep(s, now);
      && t.alerts == s.alerts + 1 && PhaseOf(t) == Idle && t.displayMs == 0 && t.rendered == 0
      && TickStep(t, later) == t
      && PauseOrResumeStep(t, later) == t
      && AddLapStep(t) == t
  {
    TickSpec(s, now);
  }

  /**
   * Between two ticks of a running countdown the remaining time shown never
   * goes up, and it goes strictly down when the clock has moved.
   */
  lemma CountdownNonIncreasing(s: State, now: int, later: int)
    requires Inv(s) && s.clock <= now <= later && s.running && s.mode == Countdown
    requires TickStep(s, now).running
    ensures var t := TickStep(s, now);
      && TickStep(t, later).displayMs <= t.displayMs
      && (now < later ==> TickStep(t, later).displayMs < t.displayMs)
  {
    TickSpec(s, now);
    TickSpec(TickStep(s, now), later);
  }

  /**
   * The tick that ends a countdown leaves it idle showing zero, so the Reset
   * button is disabled, yet the time banked by earlier pauses is still held.
   */
  lemma ResetDisabledAfterFinish(s: State, now: int)
    requires Inv(s) && s.clock <= now && s.running && s.mode == Countdown
    requires ElapsedAt(s, now) >= s.targetMs
    ensures var t := TickStep(s, now);
      StartEnabled(t) && !ResetEnabled(t) && t.accElapsed == s.accElapsed
  {
    TickSpec(s, now);
  }

  /**
   * `start` does not clear the banked time, and neither does a countdown
   * finishing: a countdown that was paused before it ran out, restarted
   * without a reset, counts down from its new target less the time banked
   * during the earlier run.
   */
  lemma RestartAfterFinishKeepsBanked(s: State, now: int, restart: int, later: int)
    requires Inv(s) && s.running && s.mode == Countdown && s.clock <= now <= restart <= later
    requires ElapsedAt(s, now) >= s.targetMs
    ensures var r := StartStep(TickStep(s, now), restart);
      && r.accElapsed == s.accElapsed
      && (r.targetMs > 0 ==>
            && PhaseOf(r) == Running
            && TickStep(r, later).displayMs == NonNeg(r.targetMs - s.accElapsed - (later - restart)))
  {
    TickSpec(s, now);
    StartSpec(TickStep(s, now), restart);
  }

  /**
   * `reset` works from any phase: it needs nothing of the phase or the time
   * bookkeeping, leaves the timer idle with all of it zeroed, keeps the laps,
   * the mode and the inputs, and a second reset changes nothing.
   */
  lemma ResetSpec(s: State)
    requires LapsWellFormed(s) && s.alerts <= s.countdowns
    ensures var t := ResetStep(s);
      && Inv(t) && PhaseOf(t) == Idle && !t.ticking
      && t.startTs == 0 && t.accElapsed == 0 && t.displayMs == 0 && t.targetMs == 0
      && t.lastLapTotal == 0 && t.rendered == 0 && t.runs == []
      && t.mode == s.mode && t.laps == s.laps
      && t.cdHours == s.cdHours && t.cdMins == s.cdMins && t.cdSecs == s.cdSecs
      && t.alerts == s.alerts
      && ResetStep(t) == t
  {
  }

  /**
   * `setMode` with the current mode changes nothing; with the other mode it
   * switches, resets (keeping the laps) and a countdown then shows its
   * configured duration. Asking for the same mode twice is the same as once.
   */
  lemma SetModeSpec(s: State, next: Mode)
    requires Inv(s)
    ensures var t := SetModeStep(s, next);
      && Inv(t)
      && (next == s.mode ==> t == s)
      && (next != s.mode ==>
            && t.mode == next && PhaseOf(t) == Idle
            && !t.ticking && t.startTs == 0 && t.accElapsed == 0 && t.runs == []
            && t.displayMs == 0 && t.targetMs == 0 && t.lastLapTotal == 0
            && t.laps == s.laps
            && t.rendered == (if next == Countdown then CountdownMs(s.cdHours, s.cdMins, s.cdSecs) else 0)
            && t.(mode := s.mode, running := s.running, paused := s.paused, ticking := s.ticking,
                  startTs := s.startTs, accElapsed := s.accElapsed, runs := s.runs,
                  displayMs := s.displayMs, targetMs := s.targetMs, lastLapTotal := s.lastLapTotal,
                  rendered := s.rendered) == s)
      && SetModeStep(t, next) == t
  {
    ResetSpec(s.(mode := next));
  }

  /**
   * `addLap` acts only for a running stopwatch. It appends lap number
   * `|laps| + 1` whose total is the displayed time and whose split, added to
   * the previous lap mark, gives that total; the split is never negative and,
   * when the previous lap mark is the previous lap, it is the difference of
   * the two totals. Nothing but the list and the lap mark changes.
   */
  lemma AddLapSpec(s: State)
    requires Inv(s)
    ensures var t := AddLapStep(s);
      && Inv(t)
      && (!LapEnabled(s) ==> t == s)
      && (LapEnabled(s) ==>
            && |t.laps| == |s.laps| + 1 && t.laps[..|s.laps|] == s.laps
            && var l := t.laps[|s.laps|];
            && l.index == |s.laps| + 1 && l.total == s.displayMs
            && s.lastLapTotal + l.split == l.total && 0 <= l.split
            && t.lastLapTotal == l.total
            && (s.lastLapTotal != 0 ==> l.split == l.total - s.laps[|s.laps| - 1].total)
            && t.(laps := s.laps, lastLapTotal := s.lastLapTotal) == s)
  {
    if LapEnabled(s) {
      assert (s.laps + [Lap(|s.laps| + 1, s.displayMs - s.lastLapTotal, s.displayMs)])[..|s.laps|] == s.laps;
    }
  }

  /** `clearLaps` empties the list and the lap mark and touches nothing else. */
  lemma ClearLapsSpec(s: State)
    requires Inv(s)
    ensures var t := ClearLapsStep(s);
      && Inv(t) && t.laps == [] && t.lastLapTotal == 0
      && t.(laps := s.laps, lastLapTotal := s.lastLapTotal) == s
  {
  }

  /**
   * The preset acts only on an idle countdown: it sets the fields to
   * 0h 5m 0s, whose duration is five minutes, and shows it.
   */
  lemma PresetSpec(s: State)
    requires Inv(s)
    ensures var t := PresetStep(s);
      && Inv(t)
      && (!PresetEnabled(s) ==> t == s)
      && (PresetEnabled(s) ==>
            && t.cdHours == 0 && t.cdMins == 5 && t.cdSecs == 0
            && CountdownMs(t.cdHours, t.cdMins, t.cdSecs) == 5 * 60 * 1000
            && t.rendered == 5 * 60 * 1000
            && Decompose(t.rendered) == Parts(0, 5, 0, 0)
            && t.(cdHours := s.cdHours, cdMins := s.cdMins, cdSecs := s.cdSecs, rendered := s.rendered) == s)
  {
    CountdownDisplay(0, 5, 0);
  }

  /** Typing into a field changes that field only. */
  lemma EditSpec(s: State, f: Field, value: int)
    requires Inv(s)
    ensures var t := EditStep(s, f, value);
      Inv(t) && FieldValue(t, f) == value && SetField(t, f, FieldValue(s, f)) == s
  {
  }

  /**
   * Committing a field clamps it into its range (a value already in range
   * is kept), and an idle countdown then shows the duration of the fields.
   * Committing the same field again changes nothing.
   */
  lemma InputChangedSpec(s: State, f: Field)
    requires Inv(s)
    ensures var t := InputChangedStep(s, f);
      && Inv(t)
      && 0 <= FieldValue(t, f) <= FieldMax(f)
      && (0 <= FieldValue(s, f) <= FieldMax(f) ==> FieldValue(t, f) == FieldValue(s, f))
      && (FieldValue(s, f) > FieldMax(f) ==> FieldValue(t, f) == FieldMax(f))
      && (FieldValue(s, f) < 0 ==> FieldValue(t, f) == 0)
      && SetField(t, f, FieldValue(s, f)).(rendered := s.rendered) == s
      && (s.mode == Countdown && PhaseOf(s) == Idle ==> t.rendered == CountdownMs(t.cdHours, t.cdMins, t.cdSecs))
      && (s.mode != Countdown || PhaseOf(s) != Idle ==> t.rendered == s.rendered)
      && InputChangedStep(t, f) == t
  {
    var t := InputChangedStep(s, f);
    InputsIrrelevant(s, t);
  }

  /** The invariant does not depend on the input fields or on what was last rendered. */
  lemma InputsIrrelevant(s: State, t: State)
    requires Inv(s)
    requires t == s.(cdHours := t.cdHours, cdMins := t.cdMins, cdSecs := t.cdSecs, rendered := t.rendered)
    ensures Inv(t)
  {
  }

  /**
   * The keyboard handler keeps the invariant; a held-down repeat and any key
   * other than space, `r` and `l` do nothing.
   */
  lemma KeyStepSpec(s: State, key: string, repeat: bool, now: int)
    requires Inv(s) && s.clock <= now
    ensures var t := KeyStep(s, key, repeat, now);
      && Inv(t)
      && (repeat ==> t == s)
      && (key != " " && key != "r" && key != "R" && key != "l" && key != "L" ==> t == s)
  {
    match KeyCommand(key, repeat, !s.running && !s.paused)
    case DoStart => StartSpec(s, now);
    case DoPauseOrResume => PauseOrResumeSpec(s, now);
    case DoReset => ResetSpec(s);
    case DoLap => AddLapSpec(s);
    case Ignore =>
  }

  /**
   * What the invariant adds to the enablement rules: Pause/Resume is enabled
   * exactly while the refresh is scheduled or the timer is paused; Lap only
   * while the refresh is scheduled, and never for a negative split; an idle
   * timer of either mode shows zero, so Reset is enabled exactly when
   * Pause/Resume is; and a non-zero lap mark means there are laps to clear.
   */
  lemma ControlsFollowPhase(s: State)
    requires Inv(s)
    ensures PauseEnabled(s) <==> s.ticking || s.paused
    ensures StartEnabled(s) ==> !s.ticking
    ensures LapEnabled(s) ==> s.ticking && s.lastLapTotal <= s.displayMs
    ensures ResetEnabled(s) <==> PauseEnabled(s)
    ensures s.lastLapTotal != 0 ==> ClearLapsEnabled(s)
  {
  }
}

=== FILE: timer_state.dfy ===
/**
 * The timer widget's state and what each event handler does to it, as
 * functions from the state before to the state after. Time is integer
 * milliseconds read from a monotonic clock; a handler that samples the clock
 * receives the reading `now`.
 */
module TimerState {
  import opened TimerUtils

  datatype Mode = Stopwatch | Countdown

  datatype Phase = Idle | Running | Paused

  /** One row of the lap list: its 1-based position, the split and the running total. */
  datatype Lap = Lap(index: int, split: int, total: int)

  /** A running stretch of time, from a start or resume to the pause that banked it. */
  datatype Interval = Interval(from: int, to: int)

  /** The three countdown input fields. */
  datatype Field = Hours | Minutes | Seconds

  /** What a key press asks for. */
  datatype Command = DoStart | DoPauseOrResume | DoReset | DoLap | Ignore

  /**
   * Everything the widget keeps between events. `ticking` stands for the
   * scheduled refresh (`interval` set), `alerts` counts completion beeps and
   * `rendered` is the last duration handed to the display. The last three
   * fields are bookkeeping for the proofs only: the latest clock reading,
   * the running intervals banked by pauses since the last reset, and the
   * number of countdowns started.
   */
  datatype State = State(
    mode: Mode,
    running: bool,
    paused: bool,
    ticking: bool,
    startTs: int,
    accElapsed: int,
    lastTick: int,
    displayMs: int,
    lastLapTotal: int,
    targetMs: int,
    cdHours: int,
    cdMins: int,
    cdSecs: int,
    laps: seq<Lap>,
    alerts: nat,
    rendered: int,
    clock: int,
    runs: seq<Interval>,
    countdowns: nat)

  function PhaseOf(s: State): Phase
  {
    if s.running then Running else if s.paused then Paused else Idle
  }

  /** The largest value an input field is clamped to. */
  function FieldMax(f: Field): int
  {
    match f
    case Hours => MaxHours
    case Minutes => MaxMinutes
    case Seconds => MaxSeconds
  }

  function FieldValue(s: State, f: Field): int
  {
    match f
    case Hours => s.cdHours
    case Minutes => s.cdMins
    case Seconds => s.cdSecs
  }

  function SetField(s: State, f: Field, v: int): State
  {
    match f
    case Hours => s.(cdHours := v)
    case Minutes => s.(cdMins := v)
    case Seconds => s.(cdSecs := v)
  }

  /** The running time at clock reading `now`: the banked time plus the current interval. */
  function ElapsedAt(s: State, now: int): int
  {
    s.accElapsed + if s.running then now - s.startTs else 0
  }

  // Banked running time

  /** The total length of the banked running intervals. */
  function Banked(runs: seq<Interval>): int
  {
    if runs == [] then 0 else runs[0].to - runs[0].from + Banked(runs[1..])
  }

  /** The total length of the gaps between consecutive banked intervals. */
  function Gaps(runs: seq<Interval>): int
  {
    if |runs| < 2 then 0 else runs[1].from - runs[0].to + Gaps(runs[1..])
  }

  /** Intervals that are well formed and follow each other without overlap. */
  ghost predicate Chronological(runs: seq<Interval>)
  {
    && (forall i :: 0 <= i < |runs| ==> runs[i].from <= runs[i].to)
    && (forall i :: 0 < i < |runs| ==> runs[i - 1].to <= runs[i].from)
  }

  /** Banking one more interval adds exactly its length. */
  lemma {:induction false} BankedAppend(runs: seq<Interval>, iv: Interval)
    ensures Banked(runs + [iv]) == Banked(runs) + (iv.to - iv.from)
  {
    if runs != [] {
      assert (runs + [iv])[1..] == runs[1..] + [iv];
      BankedAppend(runs[1..], iv);
    }
  }

  /**
   * From the first start to the last pause, the wall-clock span is the banked
   * running time plus the time in between; both parts are non-negative, so
   * the time between intervals never counts as running time.
   */
  lemma {:induction false} SpanSplits(runs: seq<Interval>)
    requires Chronological(runs) && |runs| > 0
    ensures Banked(runs) + Gaps(runs) == runs[|runs| - 1].to - runs[0].from
    ensures 0 <= Banked(runs) && 0 <= Gaps(runs)
  {
    if |runs| > 1 {
      var rest := runs[1..];
      assert Chronological(rest) by {
        forall i | 0 < i < |rest| ensures rest[i - 1].to <= rest[i].from {
          assert rest[i - 1] == runs[i] && rest[i] == runs[i + 1];
        }
      }
      SpanSplits(rest);
      assert runs[0].to <= runs[1].from;
    }
  }

  // The invariant

  /** At most one phase holds, and the refresh is scheduled exactly while running. */
  ghost predicate PhasesExclusive(s: State)
  {
    !(s.running && s.paused) && s.ticking == s.running
  }

  /** The banked time is the total of the running intervals that pauses ended. */
  ghost predicate BankedIsSum(s: State)
  {
    && s.accElapsed == Banked(s.runs) && Chronological(s.runs) && 0 <= s.accElapsed
    && (|s.runs| > 0 ==> s.runs[|s.runs| - 1].to <= s.clock)
    && (s.running ==> s.startTs <= s.clock && (|s.runs| > 0 ==> s.runs[|s.runs| - 1].to <= s.startTs))
  }

  /** Laps are numbered from 1, no split is negative, and a non-zero lap mark is the last total. */
  ghost predicate LapsWellFormed(s: State)
  {
    && 0 <= s.lastLapTotal
    && (forall i :: 0 <= i < |s.laps| ==> s.laps[i].index == i + 1 && 0 <= s.laps[i].split <= s.laps[i].total)
    && (s.lastLapTotal != 0 ==> |s.laps| > 0 && s.lastLapTotal == s.laps[|s.laps| - 1].total)
  }

  /**
   * A stopwatch never shows more than the running time, nor less than the
   * lap mark; a countdown never shows more than its target; an idle timer of
   * either mode shows zero; an active countdown has a positive target.
   */
  ghost predicate DisplayBounded(s: State)
  {
    && 0 <= s.displayMs
    && (s.mode == Stopwatch ==> s.lastLapTotal <= s.displayMs <= ElapsedAt(s, s.clock))
    && (s.mode == Countdown ==> s.lastLapTotal == 0 && s.displayMs <= s.targetMs)
    && (!s.running && !s.paused ==> s.displayMs == 0)
    && (s.mode == Countdown && (s.running || s.paused) ==> s.targetMs > 0)
  }

  /** A countdown alerts at most once per start. */
  ghost predicate AlertsBounded(s: State)
  {
    s.alerts + (if s.mode == Countdown && (s.running || s.paused) then 1 else 0) <= s.countdowns
  }

  ghost predicate Inv(s: State)
  {
    PhasesExclusive(s) && BankedIsSum(s) && LapsWellFormed(s) && DisplayBounded(s) && AlertsBounded(s)
  }

  // The handlers

  /** The state when the page has loaded; the inputs hold the page's initial values. */
  function Initial(hours: int, mins: int, secs: int): State
  {
    State(Countdown, false, false, false, 0, 0, 0, 0, 0, 0, hours, mins, secs, [], 0,
          CountdownMs(hours, mins, secs), 0, [], 0)
  }

  /** `start` */
  function StartStep(s: State, now: int): State
  {
    if s.running || s.paused then s
    else if s.mode == Countdown then
      var h := ClampInt(s.cdHours, 0, MaxHours);
      var m := ClampInt(s.cdMins, 0, MaxMinutes);
      var sec := ClampInt(s.cdSecs, 0, MaxSeconds);
      var target := CountdownMs(h, m, sec);
      var s' := s.(cdHours := h, cdMins := m, cdSecs := sec, targetMs := target);
      if target <= 0 then s'.(rendered := 0)
      else BeginRun(s'.(rendered := target, countdowns := s.countdowns + 1), now)
    else
      BeginRun(s, now)
  }

  /** The shared tail of `start` and of a resume: running from `now`, refresh scheduled. */
  function BeginRun(s: State, now: int): State
  {
    s.(running := true, paused := false, startTs := now, clock := now, ticking := true)
  }

  /** `pauseOrResume` */
  function PauseOrResumeStep(s: State, now: int): State
  {
    if !s.running && !s.paused then s
    else if s.running then
      s.(running := false, paused := true, ticking := false,
         accElapsed := s.accElapsed + (now - s.startTs),
         runs := s.runs + [Interval(s.startTs, now)], clock := now)
    else
      BeginRun(s, now)
  }

  /** `finish` */
  function FinishStep(s: State): State
  {
    s.(running := false, paused := false, ticking := false)
  }

  /** `beep`: one more completion alert. */
  function BeepStep(s: State): State
  {
    s.(alerts := s.alerts + 1)
  }

  /** `tick` */
  function TickStep(s: State, now: int): State
  {
    if !s.running then s
    else
      var elapsed := s.accElapsed + (now - s.startTs);
      var s' := s.(lastTick := now, clock := now);
      if s.mode == Stopwatch then s'.(displayMs := elapsed, rendered := elapsed)
      else
        var remain := NonNeg(s.targetMs - elapsed);
        var s'' := s'.(displayMs := remain, rendered := remain);
        if remain <= 0 then BeepStep(FinishStep(s'')) else s''
  }

  /** `reset` */
  function ResetStep(s: State): State
  {
    s.(running := false, paused := false, ticking := false,
       startTs := 0, accElapsed := 0, displayMs := 0, targetMs := 0, lastLapTotal := 0,
       rendered := 0, runs := [])
  }

  /** `setMode` */
  function SetModeStep(s: State, next: Mode): State
  {
    if s.mode == next then s
    else
      var r := ResetStep(s.(mode := next));
      if next == Countdown then r.(rendered := CountdownMs(r.cdHours, r.cdMins, r.cdSecs)) else r
  }

  /** `addLap` */
  function AddLapStep(s: State): State
  {
    if s.mode != Stopwatch || !s.running then s
    else
      var total := s.displayMs;
      var split := total - s.lastLapTotal;
      s.(lastLapTotal := total, laps := s.laps + [Lap(|s.laps| + 1, split, total)])
  }

  /** `clearLaps` */
  function ClearLapsStep(s: State): State
  {
    s.(laps := [], lastLapTotal := 0)
  }

  /** The 5-minute preset button. */
  function PresetStep(s: State): State
  {
    if s.mode != Countdown || s.running || s.paused then s
    else s.(cdHours := 0, cdMins := 5, cdSecs := 0, rendered := CountdownMs(0, 5, 0))
  }

  /** The user types a value into an input field; the page stores it as typed. */
  function EditStep(s: State, f: Field, value: int): State
  {
    SetField(s, f, value)
  }

  /** A field's value clamped to that field's range. */
  function ClampFieldStep(s: State, f: Field): State
  {
    SetField(s, f, ClampInt(FieldValue(s, f), 0, FieldMax(f)))
  }

  /** The `change` handler of an input field. */
  function InputChangedStep(s: State, f: Field): State
  {
    var s' := ClampFieldStep(s, f);
    if s'.mode == Countdown && !s'.running && !s'.paused
    then s'.(rendered := CountdownMs(s'.cdHours, s'.cdMins, s'.cdSecs))
    else s'
  }

  /**
   * The keyboard shortcut table: a held-down repeat does nothing; space starts
   * an idle timer and otherwise pauses or resumes; `r` resets; `l` adds a lap.
   * The key is compared after lower-casing, so `R` and `L` count too (no other
   * key name lower-cases to " ", "r" or "l").
   */
  function KeyCommand(key: string, repeat: bool, idle: bool): Command
  {
    if repeat then Ignore
    else if key == " " then (if idle then DoStart else DoPauseOrResume)
    else if key == "r" || key == "R" then DoReset
    else if key == "l" || key == "L" then DoLap
    else Ignore
  }

  /** The `keydown` handler. */
  function KeyStep(s: State, key: string, repeat: bool, now: int): State
  {
    match KeyCommand(key, repeat, !s.running && !s.paused)
    case DoStart => StartStep(s, now)
    case DoPauseOrResume => PauseOrResumeStep(s, now)
    case DoReset => ResetStep(s)
    case DoLap => AddLapStep(s)
    case Ignore => s
  }

  // Which controls are enabled (`updateButtons`)

  predicate StartEnabled(s: State)
  {
    !(s.running || s.paused)
  }

  predicate PauseEnabled(s: State)
  {
    s.running || s.paused
  }

  predicate ResetEnabled(s: State)
  {
    !(!s.running && !s.paused && s.displayMs == 0)
  }

  predicate LapEnabled(s: State)
  {
    s.mode == Stopwatch && s.running
  }

  predicate ClearLapsEnabled(s: State)
  {
    |s.laps| != 0
  }

  predicate InputsEnabled(s: State)
  {
    if s.mode == Countdown then !(s.running || s.paused) else true
  }

  predicate PresetEnabled(s: State)
  {
    s.mode == Countdown && !(s.running || s.paused)
  }
}

=== FILE: utils.dfy ===
/**
 * The pure helpers of the timer widget: clamping an input field, turning the
 * three countdown fields into a duration, and formatting a duration as
 * HH:MM:SS.cs with every field zero-padded to two digits.
 */
module TimerUtils {

  const MaxHours := 99
  const MaxMinutes := 59
  const MaxSeconds := 59

  /** `Math.max(min, Math.min(max, v))` on an integer field value. */
  function ClampInt(v: int, min: int, max: int): (r: int)
    ensures min <= r
    ensures min <= max ==> r <= max
    ensures min <= v <= max ==> r == v
    ensures v < min ==> r == min
    ensures min <= max < v ==> r == max
  {
    var upper := if v < max then v else max;
    if upper < min then min else upper
  }

  /**
   * The countdown duration in milliseconds for the (raw) hour, minute and
   * second fields, each clamped to its input range first.
   */
  function CountdownMs(hours: int, mins: int, secs: int): (r: int)
    ensures r % 1000 == 0
    ensures 0 <= r <= (MaxHours * 3600 + MaxMinutes * 60 + MaxSeconds) * 1000
    ensures r > 0 <==> hours > 0 || mins > 0 || secs > 0
  {
    var h := ClampInt(hours, 0, MaxHours);
    var m := ClampInt(mins, 0, MaxMinutes);
    var s := ClampInt(secs, 0, MaxSeconds);
    (h * 3600 + m * 60 + s) * 1000
  }

  /** Negative durations are shown as zero. */
  function NonNeg(ms: int): nat
  {
    if ms < 0 then 0 else ms
  }

  /** The four numeric fields of a displayed duration. */
  datatype Parts = Parts(h: nat, m: nat, s: nat, cs: nat)

  /**
   * The floor-based decomposition of a duration: whole hours, minutes,
   * seconds and hundredths of a second; the last millisecond digit is dropped.
   */
  function Decompose(ms: int): (p: Parts)
    ensures p.cs < 100 && p.s < 60 && p.m < 60
  {
    var n := NonNeg(ms);
    var totalSeconds := n / 1000;
    var totalMinutes := totalSeconds / 60;
    Parts(totalMinutes / 60, totalMinutes % 60, totalSeconds % 60, (n % 1000) / 10)
  }

  /** The decomposition is exact: the parts add back up to the duration. */
  lemma DecomposeExact(ms: int)
    ensures var p, n := Decompose(ms), NonNeg(ms);
      p.h * 3600000 + p.m * 60000 + p.s * 1000 + p.cs * 10 + n % 10 == n
  {
    var n := NonNeg(ms);
    var totalSeconds := n / 1000;
    var totalMinutes := totalSeconds / 60;
    assert n == totalSeconds * 1000 + n % 1000;
    assert n % 1000 == (n % 1000) / 10 * 10 + n % 1000 % 10;
    assert n % 1000 % 10 == n % 10;
    assert totalSeconds == totalMinutes * 60 + totalSeconds % 60;
    assert totalMinutes == totalMinutes / 60 * 60 + totalMinutes % 60;
  }

  /**
   * The decomposition is the only one with fields in range: any hours,
   * minutes, seconds, centiseconds and leftover unit that add up to `n`
   * are the ones Decompose produces.
   */
  lemma DecomposeUnique(n: nat, p: Parts, unit: nat)
    requires p.cs < 100 && p.s < 60 && p.m < 60 && unit < 10
    requires p.h * 3600000 + p.m * 60000 + p.s * 1000 + p.cs * 10 + unit == n
    ensures Decompose(n) == p && n % 10 == unit
  {
    var totalSeconds := p.h * 3600 + p.m * 60 + p.s;
    var totalMinutes := p.h * 60 + p.m;
    assert n == totalSeconds * 1000 + (p.cs * 10 + unit);
    assert n / 1000 == totalSeconds && n % 1000 == p.cs * 10 + unit;
    assert (n % 1000) / 10 == p.cs;
    assert totalSeconds / 60 == totalMinutes && totalSeconds % 60 == p.s;
    assert totalMinutes / 60 == p.h && totalMinutes % 60 == p.m;
    assert n == (totalSeconds * 100 + p.cs) * 10 + unit;
  }

  /** A countdown target is displayed as exactly the clamped input fields. */
  lemma CountdownDisplay(hours: int, mins: int, secs: int)
    ensures Decompose(CountdownMs(hours, mins, secs))
         == Parts(ClampInt(hours, 0, MaxHours), ClampInt(mins, 0, MaxMinutes), ClampInt(secs, 0, MaxSeconds), 0)
  {
    var p := Parts(ClampInt(hours, 0, MaxHours), ClampInt(mins, 0, MaxMinutes), ClampInt(secs, 0, MaxSeconds), 0);
    DecomposeUnique(CountdownMs(hours, mins, secs), p, 0);
  }

  // Decimal text

  function DigitChar(d: nat): (c: char)
    requires d < 10
    ensures '0' <= c <= '9' && c as int - '0' as int == d
  {
    (d + '0' as int) as char
  }

  predicate IsDigits(s: string)
  {
    forall i :: 0 <= i < |s| ==> '0' <= s[i] <= '9'
  }

  /** `String(n)` for a non-negative integer: its decimal digits, no leading zeros. */
  function Decimal(n: nat): (s: string)
    ensures |s| >= 1 && IsDigits(s)
    ensures s[0] == '0' <==> n == 0
    ensures n < 10 <==> |s| == 1
    ensures n < 100 <==> |s| <= 2
  {
    if n < 10 then [DigitChar(n)] else Decimal(n / 10) + [DigitChar(n % 10)]
  }

  /** The number a string of decimal digits denotes (the reference reading). */
  function ValueOf(s: string): int
  {
    if s == [] then 0 else ValueOf(s[..|s| - 1]) * 10 + (s[|s| - 1] as int - '0' as int)
  }

  lemma {:induction false} DecimalValue(n: nat)
    ensures ValueOf(Decimal(n)) == n
  {
    var s := Decimal(n);
    if n >= 10 {
      DecimalValue(n / 10);
      assert s[..|s| - 1] == Decimal(n / 10);
    }
  }

  /** `s.padStart(2, '0')`. */
  function PadStart2(s: string): (r: string)
    ensures |r| == if |s| < 2 then 2 else |s|
    ensures r[|r| - |s|..] == s
    ensures forall i :: 0 <= i < |r| - |s| ==> r[i] == '0'
  {
    if |s| >= 2 then s else if |s| == 1 then "0" + s else "00"
  }

  lemma {:induction false} ZerosValue(z: string)
    requires forall i :: 0 <= i < |z| ==> z[i] == '0'
    ensures ValueOf(z) == 0
  {
    if z != [] {
      ZerosValue(z[..|z| - 1]);
    }
  }

  lemma {:induction false} PrefixValue(z: string, s: string)
    requires ValueOf(z) == 0
    ensures ValueOf(z + s) == ValueOf(s)
  {
    if s == [] {
      assert z + s == z;
    } else {
      assert (z + s)[..|z + s| - 1] == z + s[..|s| - 1];
      PrefixValue(z, s[..|s| - 1]);
    }
  }

  /** Padding with zeros keeps the text decimal and keeps its value. */
  lemma PadKeepsValue(s: string)
    requires IsDigits(s)
    ensures IsDigits(PadStart2(s)) && ValueOf(PadStart2(s)) == ValueOf(s)
  {
    var r := PadStart2(s);
    var z := r[..|r| - |s|];
    assert r == z + s;
    ZerosValue(z);
    PrefixValue(z, s);
  }

  /** One displayed field: the decimal digits of `v`, padded to two. */
  function PaddedField(v: nat): string
  {
    PadStart2(Decimal(v))
  }

  lemma FieldIsDecimal(v: nat)
    ensures IsDigits(PaddedField(v)) && ValueOf(PaddedField(v)) == v
    ensures |PaddedField(v)| >= 2 && (v < 100 <==> |PaddedField(v)| == 2)
  {
    DecimalValue(v);
    PadKeepsValue(Decimal(v));
  }

  /** The text of the four display fields. */
  datatype Display = Display(h: string, m: string, s: string, cs: string)

  /** `formatTime(ms)`. */
  function FormatTime(ms: int): Display
  {
    var p := Decompose(ms);
    Display(PaddedField(p.h), PaddedField(p.m), PaddedField(p.s), PaddedField(p.cs))
  }

  /**
   * Every formatted field is at least two decimal digits and reads back as
   * its part of the decomposition; minutes, seconds and centiseconds are
   * exactly two digits, hours may be more. Reading the four fields back
   * recovers the duration up to its last millisecond digit.
   */
  lemma FormatTimeExact(ms: int)
    ensures var f, p := FormatTime(ms), Decompose(ms);
      && IsDigits(f.h) && IsDigits(f.m) && IsDigits(f.s) && IsDigits(f.cs)
      && ValueOf(f.h) == p.h && ValueOf(f.m) == p.m && ValueOf(f.s) == p.s && ValueOf(f.cs) == p.cs
      && |f.h| >= 2 && |f.m| == 2 && |f.s| == 2 && |f.cs| == 2
      && ValueOf(f.h) * 3600000 + ValueOf(f.m) * 60000 + ValueOf(f.s) * 1000 + ValueOf(f.cs) * 10
         == NonNeg(ms) - NonNeg(ms) % 10
  {
    var p := Decompose(ms);
    FieldIsDecimal(p.h);
    FieldIsDecimal(p.m);
    FieldIsDecimal(p.s);
    FieldIsDecimal(p.cs);
    DecomposeExact(ms);
  }
}
